=== FILE: README.md ===
# A Dafny model of the RAG chatbot's decision rules

The chatbot reads a list of PDF URLs, downloads the PDFs into a cache
directory, indexes them in a vector store, and answers chat messages
through an agent that has one retrieval tool. Most of the repository is
glue around LangChain, OpenAI, `requests`, PyPDF and Gradio. This project
models the four pieces of pure decision logic inside that glue and proves
what they promise:

- **`read_urls`** (module `UrlList`): the URL-list file, given as its lines
  or as absent, becomes the stripped lines that are neither blank nor `#`
  comments, in order. Python's `str.strip` is modelled exactly, with the
  full `str.isspace` character set (module `Text`).
- **`download_documents`** (module `Downloads`): the cache policy. The
  destination directory is the set of file names present in it, threaded
  through the loop. Each URL gets the name its path component would get
  from a POSIX `pathlib` path, or `document.pdf` if that name is empty. A present name
  is reused, a missing one is fetched, and a failed fetch drops the URL.
  Each URL arrives with its path component and with whether its fetch
  would succeed.
- **`retrieve_context`** (module `Retrieval`): the "not initialized"
  sentinel when there is no store, and otherwise the text made of one
  `Source: …` / `Content: …` block per retrieved document, joined by blank
  lines, together with the documents. The similarity search is a function
  parameter.
- **`rag_agent`** (module `ChatAgent`): the history window
  `history[-max_history_turns:]` with Python's slice semantics, dropping
  history entries that are not dicts with both a `role` and a `content` key, normalising the
  current message, and choosing the reply from the agent's stream with the
  `"No response generated."` fallback. The agent is a function parameter
  from the message list to the contents its stream emits.

`Seqs` holds the order-preserving `Filter` and `Map` and the subsequence
relation used to say "kept in input order". `Wrappers` holds `Option`.

Two behaviours of the code are worth knowing:

- `max_history_turns = 0` forwards the whole history, because `-0` is `0`
  in Python. A negative value drops that many entries from the front.
- The retrieval text reads back into the documents whenever no metadata
  contains a line break and no content contains a blank line followed by
  `Source: `, the break that starts every later block. Contents may span
  many lines. A content that does hold such a break can make two different
  document lists give the same text.

## Model

| member | source | states |
|---|---|---|
| Text.IsSpace | document_utils.py:17 | The whitespace `strip()` removes: a character is whitespace exactly when its code point is one of the 29 for which Python's `str.isspace()` holds, which are listed one by one. |
| Text.Strip | document_utils.py:17 | The result is the input with a maximal run of whitespace removed at each end. Everything removed is whitespace, and the result neither starts nor ends with whitespace. |
| Text.StripIdempotent | document_utils.py:17 | Stripping a stripped line changes nothing. |
| Text.StripEmptyIff | document_utils.py:17-18 | A line strips to the empty string exactly when every character of it is whitespace. |
| UrlList.ReadUrls | document_utils.py:11-21 | A missing file gives no URLs. Every URL is non-empty, does not start with `#`, and is left unchanged by stripping again. There are at most as many URLs as lines. |
| UrlList.ReadUrlsInOrder | document_utils.py:15-21 | The URLs are an order-preserving subsequence of the stripped lines. |
| UrlList.ReadUrlsCount | document_utils.py:16-20 | Each stripped line that is non-blank and not a comment is returned as many times as it occurs; no other string is returned. |
| UrlList.UrlLineIsKept | document_utils.py:16-20 | A line whose stripped form is a URL line appears in the result. |
| UrlList.SkippedLine | document_utils.py:18-19 | A line that strips to blank or to a `#` comment contributes nothing, and the lines after it are read as if it were absent. |
| UrlList.KeptLine | document_utils.py:17-20 | Any other line contributes its stripped form, ahead of the URLs from the lines after it. |
| UrlList.BlankCommentAndUrl | document_utils.py:16-21 | A file made of a blank line, a comment and one URL yields exactly that URL. |
| Downloads.BaseName | document_utils.py:32 | The derived name contains no `/`, is never `.`, and is no longer than the path. |
| Downloads.LocalName | document_utils.py:32 | The file name is never empty and contains no `/`. It is the path's name, or `document.pdf` when that name is empty. |
| Downloads.BaseNameOfLastSegment | document_utils.py:32 | A path ending in a segment other than empty or `.` has that segment as its name, whatever precedes it. |
| Downloads.BaseNameIgnoresTrailingSlash | document_utils.py:32 | A trailing `/` does not change the name. |
| Downloads.BaseNameIgnoresDotSegment | document_utils.py:32 | A trailing `/.` segment does not change the name. |
| Downloads.LocalNameOfRootPath | document_utils.py:32 | A path of slashes only, including the empty path, has no name, so `document.pdf` is used. |
| Downloads.StepFor | document_utils.py:32-43 | The loop body for one URL, under the URL's derived name. The URL is reused exactly when its name is present. It is downloaded exactly when the name is absent and the fetch succeeds, and dropped exactly when the name is absent and the fetch fails. |
| Downloads.After | document_utils.py:34-39 | The names present after one URL: nothing is removed, at most that URL's name is added, and the name is present afterwards exactly when it was before or the URL was downloaded. |
| Downloads.Download | document_utils.py:30-44 | The loop takes one step per URL, and the set of present names only grows. |
| Downloads.DownloadClosedForm | document_utils.py:31-43 | Step `i` is the loop body applied to the initial names plus every name downloaded at steps before `i`. |
| Downloads.DownloadStep | document_utils.py:31-43 | Step `i` handles URL `i` under its derived name. A name present from the start is reused without a fetch. A URL whose fetch fails is never counted as downloaded. |
| Downloads.DownloadFinalPresent | document_utils.py:34-39 | The names present after the loop are the initial names plus every downloaded name. |
| Downloads.DownloadedNameIsReusedLater | document_utils.py:34-43 | After a name is downloaded, a later URL with the same name is reused without fetching. |
| Downloads.AtMostOneDownloadPerName | document_utils.py:34-39 | No file name is downloaded successfully twice in one run. |
| Downloads.RetryAfterFailure | document_utils.py:34-43 | A name whose fetch failed can be fetched again by a later URL. Two URLs with path `/a` in an empty directory: the first one's fetch fails and it is dropped, then the second is fetched again and downloaded. |
| Downloads.FailedFetchIsDropped | document_utils.py:34-42 | A URL whose fetch fails is dropped exactly when its name was neither present initially nor downloaded earlier in the run. |
| Downloads.DownloadPresentIsFetched | document_utils.py:34-39 | The names present after the loop are the initial names plus the name of every URL whose fetch succeeds, whether it was downloaded or its file was already there. |
| Downloads.KeptNamesArePresent | document_utils.py:34-43 | Every URL the loop keeps names a file present when the loop ends. |
| Downloads.DownloadDocuments | document_utils.py:24-44 | The returned names are in input order and number at most the URLs. Every returned name is present afterwards. The present set afterwards is the initial names plus the name of every URL whose fetch succeeds, so a failed fetch adds nothing. Conversely, a URL whose name was present from the start, or whose fetch succeeds, has its name returned. When every name is already present, every URL's name is returned and the directory is unchanged. |
| Downloads.KeptNameIsReturned | document_utils.py:34-43 | A URL whose name was present from the start, or whose fetch succeeds, has its name in the returned list. |
| Downloads.LocalNamesCons | document_utils.py:31-43 | The returned list, one URL at a time: the first URL contributes its name unless it is dropped, followed by the names the remaining URLs give against the directory as the first step left it. |
| Downloads.LocalNamesInOrder | document_utils.py:31-44 | The returned names are an order-preserving subsequence of the URLs' derived names. |
| Downloads.LocalNamesArePresent | document_utils.py:33-43 | Every returned name is in the final set of present names. |
| Downloads.AllCachedFetchesNothing | document_utils.py:34-43 | If every derived name is already present, the result lists every URL's name in order and nothing is added. |
| Downloads.CachedDocument | document_utils.py:24-44 | A directory that already holds `doc.pdf` serves `/doc.pdf` without a fetch, even when a fetch would fail. |
| Retrieval.Block | agent_utils.py:22 | One document's block: `Source: `, the metadata, a line break, `Content: ` and the content. The block starts with `Source: ` and its length is the sum of those four parts. `Retrieval.ReadBlockOf` reads the document back from it. |
| Retrieval.ReadBlockOf | agent_utils.py:22 | Reading a block followed by nothing or by a further block break gives back the document and what follows. This holds when the metadata has no line break and the content has no block break. |
| Retrieval.Serialize | agent_utils.py:20-24 | The text is empty exactly when no document was retrieved. Otherwise it starts with `Source: `. |
| Retrieval.SerializeCons | agent_utils.py:20-24 | For several documents, the text is the first document's block, a blank-line separator, then the text of the rest. |
| Retrieval.RetrieveContext | agent_utils.py:15-25 | With no store the result is exactly the sentinel text and no documents, whatever the search would return. With a store, the artifact is what the search returns for the query with `k = 2`. The text is then never the sentinel, and it is empty exactly when nothing was retrieved. When no metadata holds a line break and no content holds a block break, the text reads back as the artifact. |
| Retrieval.ParseSerialize | agent_utils.py:20-25 | Round trip: when no metadata holds a line break and no content holds a block break (a blank line followed by `Source: `), reading the text back gives the retrieved documents, one per block, in order. Multi-line contents are included. |
| Retrieval.BreaksDoNotOverlap | agent_utils.py:20-22 | Two block breaks never overlap, so a block's content ends exactly where the next block's break begins. |
| Retrieval.SerializeIsNotInjective | agent_utils.py:20-24 | A content that holds a block break followed by a further block gives the same text as two documents, so the restriction on contents cannot be dropped. |
| ChatAgent.RecentHistory | agent_utils.py:54 | The window is a suffix of the history. A positive `M` gives the last `min(M, len)` entries, `M = 0` gives the whole history, and a negative `M` gives all but the first `-M` entries. |
| ChatAgent.HistoryMessages | agent_utils.py:55-66 | There are no more messages than window entries. As role/content items, they are an order-preserving subsequence of the window. Each well-formed entry appears as many times as in the window, and malformed entries never appear. |
| ChatAgent.Normalize | agent_utils.py:61-81 | A role/content dict becomes the message with that role and content, so it maps back to the same item. Any other current message becomes a `user` message holding its text. |
| ChatAgent.NormalizeWellFormed | agent_utils.py:61-66 | Normalising well-formed entries loses nothing: each message maps back to its entry. |
| ChatAgent.HistoryMessagesOfWellFormed | agent_utils.py:55-66 | A window of well-formed entries is forwarded whole, in order. |
| ChatAgent.AssembleMessages | agent_utils.py:51-81 | The list is never empty, and its last element is the current message. A role/content message keeps its role and content; any other message becomes a `user` message holding its text. An empty or absent history gives exactly one message. Otherwise the earlier messages are those of the history window, and there are at most as many as window entries. |
| ChatAgent.DefaultForwardsFiveTurns | agent_utils.py:33-66 | With the default `max_history_turns` and a well-formed history of at least five entries, the agent receives the last five entries in order, then the current message. |
| ChatAgent.LastTurnsAreForwarded | agent_utils.py:51-81 | With a well-formed history of at least `M > 0` entries, the agent receives exactly the last `M` entries in order, then the current message. |
| ChatAgent.LastEvent | agent_utils.py:83-88 | `final_text` ends as the last event's content, or unchanged when there are no events. |
| ChatAgent.FinalReply | agent_utils.py:83-89 | The reply is never empty. It is the last event's content when that is non-empty; otherwise, or when there are no events, it is `"No response generated."`. |
| ChatAgent.RagAgent | agent_utils.py:45-89 | The handler's reply is never empty. It is the last content the agent streamed for the assembled messages when that content is non-empty, and `"No response generated."` when the agent streams nothing or its last content is empty. |

## Left out

- The HTTP request (`requests.get`, its timeout, `raise_for_status`), the file write, `mkdir` and all `print` logging. A fetch's outcome is the `fetchOk` input of each URL, and the directory is the set of names present in it.
- `urlparse`: each URL comes with its path component as an input. Percent-decoding and the other parts of the URL play no role in the name.
- Downloads.Download: errors raised outside the `try` are not modelled. `urlparse` raises `ValueError` on an unbalanced `[` in the host, and `exists()` can raise; in the program either one aborts the whole batch, while the model handles every URL.
- Downloads.DownloadFinalPresent: a `write_bytes` that fails after creating the file leaves a partial file behind. The program drops that URL but later URLs and later runs reuse the file. The model treats every failed fetch as leaving nothing, so a failure never adds a name.
- UrlList.ReadUrls: `read_text()` raising for an existing path (a directory, an unreadable file, an undecodable file) is not modelled. The input is either absent or a list of lines.
- Downloads.StepFor: names are compared as exact strings, as on a case-sensitive file system. On a case-insensitive one, such as the macOS default, `exists()` also finds a file written under a name that differs only in case or in Unicode normalisation, so the program reuses `a.pdf` for a later `A.pdf`. The model fetches it instead, and DownloadedNameIsReusedLater and AtMostOneDownloadPerName hold only for names that are equal strings.
- Downloads.BaseName: names follow POSIX paths only. A `WindowsPath` also splits on `\`, which the model does not.
- Joining `destination_dir / name`: the model returns file names rather than paths. Whether a name "exists" is membership in the present set, so a caller decides for unusual names. For example, `..` exists as the parent directory in the real program.
- `read_text().splitlines()`: the file is given as its sequence of lines, so line-ending handling is not modelled.
- `load_pdfs`, `split_documents`, `build_vector_store`, the embeddings and the similarity ranking. These are library and service behaviour; the search is a function parameter.
- The `create_agent` tool-calling loop, the model and the `SYSTEM_PROMPT` environment lookup. The agent is a function from the message list to the contents its stream emits.
- The contents the agent streams are taken to be strings. A content given as a list of content blocks is not modelled.
- `str()` of metadata, roles, contents and of messages that are not role/content dicts: these renderings are inputs, so only their strings are modelled.
- main.py and gradio_app.py: configuration, pipeline wiring and UI construction.
- Retrieval.ParseSerialize: the round trip is stated only for metadata without line breaks and contents without a block break. A content holding a block break makes the text ambiguous (Retrieval.SerializeIsNotInjective). A line break in the metadata is excluded as well; `str()` of a metadata dict escapes line breaks inside its strings.
- Retrieval.RetrieveContext: an exception from `similarity_search`, such as a failed embedding call, propagates out of the tool. The search is a total function here, so the tool always answers in the model.
- ChatAgent.RagAgent: an exception from `agent.stream`, such as a model or API error, propagates out of the handler with no reply. The agent is a total function here, so "the reply is never empty" holds only for streams that complete.
- ChatAgent.AssembleMessages: a history that is any falsy value other than an empty list is modelled as absent (`None`).

=== FILE: chat_agent.dfy ===
/** The chat handler: the inner `rag_agent` in agent_utils.py.

    Incoming values are typed: a dict that has both a "role" and a
    "content" key is `RoleContent`, holding the `str()` of both values;
    anything else is `Other`, holding its `str()`. The agent built by
    `create_agent` is opaque: it maps the assembled message list to the
    sequence of final-message contents its stream emits. */
module ChatAgent {
  import opened Wrappers
  import opened Seqs

  const NoResponse := "No response generated."

  /** `max_history_turns` when the caller gives none. */
  const DefaultMaxHistoryTurns := 5

  /** Role given to a current message that is not a role/content dict. */
  const DefaultRole := "user"

  datatype Item = RoleContent(role: string, content: string) | Other(text: string)

  /** A normalised message, `{"role": ..., "content": ...}`. */
  datatype Msg = Msg(role: string, content: string)

  // ---------------------------------------------------------------------
  // history[-max_history_turns:]
  // ---------------------------------------------------------------------

  /** Start index of the Python slice `s[-m:]` on a list of length `len`:
      a negative start counts from the end and is clamped at 0, a
      non-negative one is clamped at `len`. Note that `-0` is `0`. */
  function SliceStart(len: nat, m: int): (start: nat)
    ensures start <= len
  {
    var start := -m;
    if start < 0 then (if start + len < 0 then 0 else start + len)
    else if start > len then len else start
  }

  /** `history[-m:]`: the last `m` entries for positive `m`, the whole
      history for `m == 0`, and all but the first `-m` for negative `m`. */
  function RecentHistory(history: seq<Item>, m: int): (recent: seq<Item>)
    ensures |recent| <= |history| && recent == history[|history| - |recent|..]
    ensures m > 0 ==> |recent| == if m < |history| then m else |history|
    ensures m == 0 ==> recent == history
    ensures m < 0 ==> |recent| == if |history| + m < 0 then 0 else |history| + m
  {
    history[SliceStart(|history|, m)..]
  }

  // ---------------------------------------------------------------------
  // Normalisation
  // ---------------------------------------------------------------------

  predicate WellFormed(item: Item) { item.RoleContent? }

  /** The message an item becomes; a current message that is not a
      role/content dict is a user message holding its text. */
  function Normalize(item: Item): (m: Msg)
    ensures item.RoleContent? ==> AsItem(m) == item
    ensures item.Other? ==> m.role == DefaultRole && m.content == item.text
  {
    match item
    case RoleContent(role, content) => Msg(role, content)
    case Other(text) => Msg(DefaultRole, text)
  }

  /** The role/content dict a message came from. */
  function AsItem(m: Msg): Item { RoleContent(m.role, m.content) }

  lemma {:induction false} NormalizeWellFormed(items: seq<Item>)
    requires forall i :: 0 <= i < |items| ==> WellFormed(items[i])
    ensures Map(AsItem, Map(Normalize, items)) == items
  {
    assert forall i :: 0 <= i < |items| ==> AsItem(Normalize(items[i])) == items[i];
  }

  /** The messages contributed by a history window: exactly its well-formed
      entries, in their original order. */
  function HistoryMessages(window: seq<Item>): (msgs: seq<Msg>)
    ensures |msgs| <= |window|
    ensures IsSubsequence(Map(AsItem, msgs), window)
    ensures forall x :: multiset(Map(AsItem, msgs))[x] == if WellFormed(x) then multiset(window)[x] else 0
  {
    var kept := Filter(WellFormed, window);
    FilterIsSubsequence(WellFormed, window);
    NormalizeWellFormed(kept);
    assert forall x :: multiset(kept)[x] == if WellFormed(x) then multiset(window)[x] else 0 by {
      forall x ensures multiset(kept)[x] == if WellFormed(x) then multiset(window)[x] else 0 {
        FilterCount(WellFormed, window, x);
      }
    }
    Map(Normalize, kept)
  }

  /** The message list handed to the agent: the recent well-formed history
      followed by the current message. */
  function AssembleMessages(message: Item, history: Option<seq<Item>>, maxTurns: int): (msgs: seq<Msg>)
    ensures msgs != []
    ensures message.RoleContent? ==> msgs[|msgs| - 1] == Msg(message.role, message.content)
    ensures message.Other? ==> msgs[|msgs| - 1] == Msg(DefaultRole, message.text)
    ensures history.None? || history == Some([]) ==> |msgs| == 1
    ensures history.Some? ==> msgs[..|msgs| - 1] == HistoryMessages(RecentHistory(history.value, maxTurns))
    ensures history.Some? ==> |msgs| <= |RecentHistory(history.value, maxTurns)| + 1
  {
    var prior :=
      match history
      case Some(h) => if h == [] then [] else HistoryMessages(RecentHistory(h, maxTurns))
      case None => [];
    assert history.Some? && history.value == [] ==> prior == HistoryMessages([]);
    prior + [Normalize(message)]
  }

  /** A window of well-formed entries is forwarded whole. */
  lemma HistoryMessagesOfWellFormed(window: seq<Item>)
    requires forall i :: 0 <= i < |window| ==> WellFormed(window[i])
    ensures HistoryMessages(window) == Map(Normalize, window)
  {
    FilterAll(WellFormed, window);
  }

  /** With the default setting and a well-formed history of at least five
      entries, the agent receives the last five, in order, then the
      current message. */
  lemma DefaultForwardsFiveTurns(message: Item, history: seq<Item>)
    requires |history| >= DefaultMaxHistoryTurns
    requires forall i :: 0 <= i < |history| ==> WellFormed(history[i])
    ensures AssembleMessages(message, Some(history), DefaultMaxHistoryTurns)
            == Map(Normalize, history[|history| - DefaultMaxHistoryTurns..]) + [Normalize(message)]
  {
    ForwardedWindow(message, history, DefaultMaxHistoryTurns);
  }

  /** With a history of well-formed entries at least `m > 0` long, the agent
      receives exactly the last `m` entries, in order, then the current
      message. */
  lemma LastTurnsAreForwarded(message: Item, history: seq<Item>, m: int)
    requires 0 < m <= |history|
    requires forall i :: 0 <= i < |history| ==> WellFormed(history[i])
    ensures |AssembleMessages(message, Some(history), m)| == m + 1
    ensures forall i :: 0 <= i < m ==>
              AssembleMessages(message, Some(history), m)[i] == Normalize(history[|history| - m + i])
  {
    ForwardedWindow(message, history, m);
  }

  lemma ForwardedWindow(message: Item, history: seq<Item>, m: int)
    requires 0 < m <= |history|
    requires forall i :: 0 <= i < |history| ==> WellFormed(history[i])
    ensures AssembleMessages(message, Some(history), m)
            == Map(Normalize, history[|history| - m..]) + [Normalize(message)]
  {
    var recent := RecentHistory(history, m);
    assert recent == history[|history| - m..];
    assert forall i :: 0 <= i < |recent| ==> WellFormed(recent[i]) by {
      forall i | 0 <= i < |recent| ensures WellFormed(recent[i]) {
        assert recent[i] == history[|history| - m + i];
      }
    }
    HistoryMessagesOfWellFormed(recent);
  }

  // ---------------------------------------------------------------------
  // The reply
  // ---------------------------------------------------------------------

  /** `final_text` after the loop over the stream: the last event's
      content, or `current` when there are no more events. */
  function LastEvent(events: seq<string>, current: Option<string>): (final: Option<string>)
    ensures events == [] ==> final == current
    ensures events != [] ==> final == Some(events[|events| - 1])
    decreases |events|
  {
    if events == [] then current else LastEvent(events[1..], Some(events[0]))
  }

  /** `final_text or "No response generated."` */
  function FinalReply(events: seq<string>): (reply: string)
    ensures reply != []
    ensures events != [] && events[|events| - 1] != [] ==> reply == events[|events| - 1]
    ensures events == [] || events[|events| - 1] == [] ==> reply == NoResponse
  {
    match LastEvent(events, None)
    case Some(text) => if text != [] then text else NoResponse
    case None => NoResponse
  }

  /** `rag_agent(message, history)` for a handler built with `maxTurns`
      around `agent`. */
  function RagAgent(message: Item, history: Option<seq<Item>>, maxTurns: int,
                    agent: seq<Msg> -> seq<string>): (reply: string)
    ensures reply != []
    ensures var events := agent(AssembleMessages(message, history, maxTurns));
            reply == NoResponse || (events != [] && reply == events[|events| - 1])
    ensures var events := agent(AssembleMessages(message, history, maxTurns));
            events != [] && events[|events| - 1] != [] ==> reply == events[|events| - 1]
    ensures var events := agent(AssembleMessages(message, history, maxTurns));
            events == [] || events[|events| - 1] == [] ==> reply == NoResponse
  {
    FinalReply(agent(AssembleMessages(message, history, maxTurns)))
  }
}

=== FILE: downloads.dfy ===
/** The document fetcher: `download_documents` in document_utils.py.

    The destination directory is modelled by the set of file names present
    in it. Each URL arrives with its path component (what `urlparse` would
    return) and with the outcome a fetch of it would have; the HTTP request,
    the file write and the logging are not part of this model. */
module Downloads {
  import opened Seqs

  /** The name used when a URL path has no basename. */
  const DefaultName := "document.pdf"

  /** One entry of the URL list: the URL, its path component, and whether
      fetching it would succeed. */
  datatype Source = Source(url: string, path: string, fetchOk: bool)

  /** What the loop did with one URL. */
  datatype Action = Reused | Downloaded | Dropped

  datatype Step = Step(url: string, name: string, action: Action)

  /** The per-URL steps, in input order, and the names present afterwards. */
  datatype Run = Run(steps: seq<Step>, present: set<string>)

  // ---------------------------------------------------------------------
  // File-name derivation: Path(path).name or "document.pdf"
  // ---------------------------------------------------------------------

  /** Length of the part of `p` after its last '/'. */
  function TrailingSegmentLength(p: string): (n: nat)
    ensures n <= |p|
    ensures forall k :: |p| - n <= k < |p| ==> p[k] != '/'
    ensures n < |p| ==> p[|p| - n - 1] == '/'
  {
    if p == [] || p[|p| - 1] == '/' then 0 else 1 + TrailingSegmentLength(p[..|p| - 1])
  }

  /** The last '/'-separated segment of `p` that is neither empty nor ".",
      or "" when there is none: what `pathlib` reports as the name of a
      POSIX path, which ignores repeated and trailing slashes and "."
      segments. */
  function BaseName(p: string): (b: string)
    ensures '/' !in b
    ensures b != "."
    ensures |b| <= |p|
    decreases |p|
  {
    var n := TrailingSegmentLength(p);
    var segment := p[|p| - n..];
    if segment != [] && segment != "." then segment
    else if n == |p| then []
    else BaseName(p[..|p| - n - 1])
  }

  /** The local file name for a URL path. */
  function LocalName(path: string): (name: string)
    ensures name != [] && '/' !in name
    ensures name == BaseName(path) || (BaseName(path) == [] && name == DefaultName)
  {
    var b := BaseName(path);
    if b == [] then DefaultName else b
  }

  lemma {:induction false} TrailingSegmentOf(prefix: string, segment: string)
    requires prefix == [] || prefix[|prefix| - 1] == '/'
    requires '/' !in segment
    ensures TrailingSegmentLength(prefix + segment) == |segment|
    decreases |segment|
  {
    if segment != [] {
      var shorter := segment[..|segment| - 1];
      assert (prefix + segment)[..|prefix + segment| - 1] == prefix + shorter;
      TrailingSegmentOf(prefix, shorter);
    }
  }

  /** The name of a path is its final segment, whatever precedes it. */
  lemma BaseNameOfLastSegment(prefix: string, segment: string)
    requires prefix == [] || prefix[|prefix| - 1] == '/'
    requires segment != [] && segment != "." && '/' !in segment
    ensures BaseName(prefix + segment) == segment
    ensures LocalName(prefix + segment) == segment
  {
    TrailingSegmentOf(prefix, segment);
    assert (prefix + segment)[|prefix|..] == segment;
  }

  /** A trailing slash does not change the name. */
  lemma BaseNameIgnoresTrailingSlash(p: string)
    ensures BaseName(p + "/") == BaseName(p)
  {
    assert TrailingSegmentLength(p + "/") == 0;
    assert (p + "/")[..|p|] == p;
  }

  /** A trailing "." segment does not change the name. */
  lemma BaseNameIgnoresDotSegment(p: string)
    ensures BaseName(p + "/.") == BaseName(p)
  {
    TrailingSegmentOf(p + "/", ".");
    assert p + "/." == (p + "/") + ".";
    assert (p + "/.")[..|p|] == p;
  }

  /** A path made of slashes only (the empty path included) has no name,
      so the default one is used. */
  lemma {:induction false} LocalNameOfRootPath(p: string)
    requires forall k :: 0 <= k < |p| ==> p[k] == '/'
    ensures BaseName(p) == []
    ensures LocalName(p) == DefaultName
    decreases |p|
  {
    if p != [] {
      assert TrailingSegmentLength(p) == 0;
      LocalNameOfRootPath(p[..|p| - 1]);
    }
  }

  // ---------------------------------------------------------------------
  // The cache / fetch / skip loop
  // ---------------------------------------------------------------------

  /** The loop body for one URL, given the names present before it. */
  function StepFor(s: Source, present: set<string>): (st: Step)
    ensures st.url == s.url && st.name == LocalName(s.path)
    ensures st.action == Reused <==> LocalName(s.path) in present
    ensures st.action == Downloaded <==> LocalName(s.path) !in present && s.fetchOk
    ensures st.action == Dropped <==> LocalName(s.path) !in present && !s.fetchOk
  {
    var name := LocalName(s.path);
    if name in present then Step(s.url, name, Reused)
    else if s.fetchOk then Step(s.url, name, Downloaded)
    else Step(s.url, name, Dropped)
  }

  /** The names present after a step: a download adds its file. */
  function After(st: Step, present: set<string>): (after: set<string>)
    ensures present <= after && after - present <= {st.name}
    ensures st.name in after <==> st.name in present || st.action == Downloaded
  {
    if st.action == Downloaded then present + {st.name} else present
  }

  /** The loop over all URLs, threading the set of present names. */
  function Download(sources: seq<Source>, present: set<string>): (run: Run)
    ensures |run.steps| == |sources|
    ensures present <= run.present
    decreases |sources|
  {
    if sources == [] then Run([], present)
    else
      var st := StepFor(sources[0], present);
      var rest := Download(sources[1..], After(st, present));
      Run([st] + rest.steps, rest.present)
  }

  /** The names downloaded by `steps`. */
  function DownloadedNames(steps: seq<Step>): set<string>
  {
    if steps == [] then {}
    else (if steps[0].action == Downloaded then {steps[0].name} else {}) + DownloadedNames(steps[1..])
  }

  lemma {:induction false} DownloadedNamesMember(steps: seq<Step>, i: nat, k: nat)
    requires i < k <= |steps|
    requires steps[i].action == Downloaded
    ensures steps[i].name in DownloadedNames(steps[..k])
    decreases i
  {
    if i > 0 {
      assert steps[..k][1..] == steps[1..][..k - 1];
      DownloadedNamesMember(steps[1..], i - 1, k - 1);
    }
  }

  lemma {:induction false} DownloadedNamesPrefix(steps: seq<Step>, k: nat)
    requires k <= |steps|
    ensures DownloadedNames(steps[..k]) <= DownloadedNames(steps)
    decreases k
  {
    if k > 0 {
      assert steps[..k][1..] == steps[1..][..k - 1];
      DownloadedNamesPrefix(steps[1..], k - 1);
    }
  }

  lemma DownloadedNamesCons(st: Step, steps: seq<Step>)
    ensures DownloadedNames([st] + steps) == After(st, {}) + DownloadedNames(steps)
  {
    assert ([st] + steps)[1..] == steps;
  }

  /** The names present after the loop are the initial ones plus every
      downloaded name. */
  lemma {:induction false} DownloadFinalPresent(sources: seq<Source>, present: set<string>)
    ensures Download(sources, present).present == present + DownloadedNames(Download(sources, present).steps)
    decreases |sources|
  {
    if sources != [] {
      var st := StepFor(sources[0], present);
      var rest := Download(sources[1..], After(st, present));
      DownloadFinalPresent(sources[1..], After(st, present));
      DownloadedNamesCons(st, rest.steps);
    }
  }

  lemma AfterAddsDownload(st: Step, present: set<string>)
    ensures After(st, present) == present + After(st, {})
  {
  }

  lemma DownloadUnfold(sources: seq<Source>, present: set<string>)
    requires sources != []
    ensures var st := StepFor(sources[0], present);
            Download(sources, present).steps == [st] + Download(sources[1..], After(st, present)).steps
  {
  }

  /** Step `i` of a run is step `i - 1` of the run over the remaining URLs,
      started from the names present after the first step. */
  lemma DownloadShift(sources: seq<Source>, present: set<string>, i: nat)
    requires 0 < i < |sources|
    ensures var st := StepFor(sources[0], present);
            var rest := Download(sources[1..], After(st, present)).steps;
            var steps := Download(sources, present).steps;
            steps[i] == rest[i - 1] && steps[..i] == [st] + rest[..i - 1]
  {
    DownloadUnfold(sources, present);
  }

  /** Names present after a step and then `rest`. */
  lemma PresentShift(st: Step, present: set<string>, rest: seq<Step>)
    ensures present + DownloadedNames([st] + rest) == After(st, present) + DownloadedNames(rest)
  {
    DownloadedNamesCons(st, rest);
    AfterAddsDownload(st, present);
  }

  /** Closed form of the loop: step `i` is the loop body applied to the
      initial names plus everything downloaded by steps `0..i`. */
  lemma {:induction false} DownloadClosedForm(sources: seq<Source>, present: set<string>, i: nat)
    requires i < |sources|
    ensures Download(sources, present).steps[i]
            == StepFor(sources[i], present + DownloadedNames(Download(sources, present).steps[..i]))
    decreases i
  {
    if i > 0 {
      var st := StepFor(sources[0], present);
      var next := After(st, present);
      var rest := Download(sources[1..], next).steps;
      DownloadShift(sources, present, i);
      PresentShift(st, present, rest[..i - 1]);
      DownloadClosedForm(sources[1..], next, i - 1);
      assert sources[1..][i - 1] == sources[i];
    }
  }

  /** Step `i` reports URL `i` under its derived name; a name that was
      present from the start is reused, and a failed fetch never counts as
      a download. */
  lemma DownloadStep(sources: seq<Source>, present: set<string>, i: nat)
    requires i < |sources|
    ensures var st := Download(sources, present).steps[i];
            && st.url == sources[i].url
            && st.name == LocalName(sources[i].path)
            && (st.name in present ==> st.action == Reused)
            && (!sources[i].fetchOk ==> st.action != Downloaded)
  {
    DownloadClosedForm(sources, present, i);
  }

  /** Once a name has been downloaded, a later URL with the same name is
      reused without another fetch. */
  lemma DownloadedNameIsReusedLater(sources: seq<Source>, present: set<string>, i: nat, j: nat)
    requires i < j < |sources|
    requires Download(sources, present).steps[i].action == Downloaded
    requires LocalName(sources[j].path) == LocalName(sources[i].path)
    ensures Download(sources, present).steps[j].action == Reused
  {
    var run := Download(sources, present);
    DownloadStep(sources, present, i);
    DownloadClosedForm(sources, present, j);
    DownloadedNamesMember(run.steps, i, j);
  }

  /** No name is downloaded successfully twice in one run. */
  lemma AtMostOneDownloadPerName(sources: seq<Source>, present: set<string>, i: nat, j: nat)
    requires i < j < |sources|
    requires Download(sources, present).steps[i].action == Downloaded
    requires Download(sources, present).steps[j].action == Downloaded
    ensures Download(sources, present).steps[i].name != Download(sources, present).steps[j].name
  {
    DownloadStep(sources, present, i);
    DownloadStep(sources, present, j);
    if LocalName(sources[j].path) == LocalName(sources[i].path) {
      DownloadedNameIsReusedLater(sources, present, i, j);
    }
  }

  /** Every name the run keeps is present in the directory afterwards. */
  lemma KeptNamesArePresent(sources: seq<Source>, present: set<string>, i: nat)
    requires i < |sources|
    requires Download(sources, present).steps[i].action != Dropped
    ensures Download(sources, present).steps[i].name in Download(sources, present).present
  {
    var run := Download(sources, present);
    DownloadClosedForm(sources, present, i);
    DownloadFinalPresent(sources, present);
    DownloadedNamesPrefix(run.steps, i);
    if run.steps[i].action == Downloaded {
      DownloadedNamesMember(run.steps, i, |run.steps|);
      assert run.steps[..|run.steps|] == run.steps;
    }
  }

  // ---------------------------------------------------------------------
  // The returned list of local paths
  // ---------------------------------------------------------------------

  predicate Kept(st: Step) { st.action != Dropped }

  function StepName(st: Step): string { st.name }

  function SourceName(s: Source): string { LocalName(s.path) }

  /** The names of the kept steps of a run, in order. */
  function LocalNames(run: Run): seq<string>
  {
    Map(StepName, Filter(Kept, run.steps))
  }

  /** `download_documents`: the names of the files now known to be present,
      in input order, and the names present afterwards. */
  function DownloadDocuments(sources: seq<Source>, present: set<string>): (r: (seq<string>, set<string>))
    ensures |r.0| <= |sources|
    ensures IsSubsequence(r.0, Map(SourceName, sources))
    ensures present <= r.1
    ensures r.1 == present + FetchedNames(sources)
    ensures forall i :: 0 <= i < |r.0| ==> r.0[i] in r.1
    ensures forall i :: 0 <= i < |sources| && (SourceName(sources[i]) in present || sources[i].fetchOk) ==>
              SourceName(sources[i]) in r.0
    ensures (forall i :: 0 <= i < |sources| ==> SourceName(sources[i]) in present) ==>
              r.0 == Map(SourceName, sources) && r.1 == present
  {
    var run := Download(sources, present);
    LocalNamesInOrder(sources, present);
    KeptNamesAreReturned(sources, present);
    LocalNamesArePresent(sources, present);
    AllCachedFetchesNothing(sources, present);
    DownloadPresentIsFetched(sources, present);
    (LocalNames(run), run.present)
  }

  /** The names of the URLs whose fetch succeeds. */
  function FetchedNames(sources: seq<Source>): set<string>
  {
    set i | 0 <= i < |sources| && sources[i].fetchOk :: SourceName(sources[i])
  }

  lemma FetchedNamesCons(sources: seq<Source>)
    requires sources != []
    ensures FetchedNames(sources)
         == (if sources[0].fetchOk then {SourceName(sources[0])} else {}) + FetchedNames(sources[1..])
  {
    var tail := sources[1..];
    forall n | n in FetchedNames(sources)
      ensures n in (if sources[0].fetchOk then {SourceName(sources[0])} else {}) + FetchedNames(tail)
    {
      var i :| 0 <= i < |sources| && sources[i].fetchOk && SourceName(sources[i]) == n;
      if i > 0 {
        assert tail[i - 1] == sources[i];
      }
    }
    forall n | n in FetchedNames(tail) ensures n in FetchedNames(sources) {
      var i :| 0 <= i < |tail| && tail[i].fetchOk && SourceName(tail[i]) == n;
      assert sources[i + 1] == tail[i];
    }
  }

  /** The directory after the run holds the initial names plus the name of
      every URL whose fetch succeeds, whether it was downloaded or its file
      was already there. */
  lemma {:induction false} DownloadPresentIsFetched(sources: seq<Source>, present: set<string>)
    ensures Download(sources, present).present == present + FetchedNames(sources)
    decreases |sources|
  {
    if sources != [] {
      var st := StepFor(sources[0], present);
      DownloadPresentIsFetched(sources[1..], After(st, present));
      FetchedNamesCons(sources);
    }
  }

  lemma LocalNamesInOrder(sources: seq<Source>, present: set<string>)
    ensures IsSubsequence(LocalNames(Download(sources, present)), Map(SourceName, sources))
  {
    var run := Download(sources, present);
    var kept := Filter(Kept, run.steps);
    FilterIsSubsequence(Kept, run.steps);
    MapSubsequence(StepName, kept, run.steps);
    forall i | 0 <= i < |sources| ensures StepName(run.steps[i]) == SourceName(sources[i]) {
      DownloadStep(sources, present, i);
    }
    assert Map(StepName, run.steps) == Map(SourceName, sources);
  }

  /** A URL whose name was present from the start, or whose fetch succeeds,
      has its name in the result. */
  lemma KeptNameIsReturned(sources: seq<Source>, present: set<string>, i: nat)
    requires i < |sources|
    requires SourceName(sources[i]) in present || sources[i].fetchOk
    ensures SourceName(sources[i]) in LocalNames(Download(sources, present))
  {
    var run := Download(sources, present);
    var kept := Filter(Kept, run.steps);
    var st := run.steps[i];
    DownloadClosedForm(sources, present, i);
    assert Kept(st);
    assert st in multiset(run.steps);
    FilterCount(Kept, run.steps, st);
    assert st in multiset(kept);
    var j :| 0 <= j < |kept| && kept[j] == st;
    assert LocalNames(run)[j] == st.name;
  }

  lemma KeptNamesAreReturned(sources: seq<Source>, present: set<string>)
    ensures forall i :: 0 <= i < |sources| && (SourceName(sources[i]) in present || sources[i].fetchOk) ==>
              SourceName(sources[i]) in LocalNames(Download(sources, present))
  {
    forall i | 0 <= i < |sources| && (SourceName(sources[i]) in present || sources[i].fetchOk)
      ensures SourceName(sources[i]) in LocalNames(Download(sources, present))
    {
      KeptNameIsReturned(sources, present, i);
    }
  }

  /** The returned names, one URL at a time: the first URL contributes its
      name unless it is dropped, ahead of the names the remaining URLs give
      from the directory as the first step left it. */
  lemma LocalNamesCons(s: Source, rest: seq<Source>, present: set<string>)
    ensures var st := StepFor(s, present);
            LocalNames(Download([s] + rest, present))
            == (if st.action != Dropped then [LocalName(s.path)] else [])
               + LocalNames(Download(rest, After(st, present)))
  {
    var st := StepFor(s, present);
    var tail := Download(rest, After(st, present)).steps;
    assert ([s] + rest)[0] == s && ([s] + rest)[1..] == rest;
    DownloadUnfold([s] + rest, present);
    assert ([st] + tail)[0] == st && ([st] + tail)[1..] == tail;
    if Kept(st) {
      MapCons(StepName, st, Filter(Kept, tail));
    }
  }

  lemma LocalNamesArePresent(sources: seq<Source>, present: set<string>)
    ensures forall n :: n in LocalNames(Download(sources, present)) ==> n in Download(sources, present).present
  {
    var run := Download(sources, present);
    var kept := Filter(Kept, run.steps);
    var names := LocalNames(run);
    forall i | 0 <= i < |names| ensures names[i] in run.present {
      assert kept[i] in multiset(kept);
      FilterCount(Kept, run.steps, kept[i]);
      var j :| 0 <= j < |run.steps| && run.steps[j] == kept[i];
      KeptNamesArePresent(sources, present, j);
    }
  }

  /** When every name is already present, nothing is fetched: every URL
      is served from the directory and the directory is unchanged. */
  lemma AllCachedFetchesNothing(sources: seq<Source>, present: set<string>)
    ensures (forall i :: 0 <= i < |sources| ==> SourceName(sources[i]) in present) ==>
              LocalNames(Download(sources, present)) == Map(SourceName, sources)
              && Download(sources, present).present == present
  {
    var run := Download(sources, present);
    if forall i :: 0 <= i < |sources| ==> SourceName(sources[i]) in present {
      forall i | 0 <= i < |sources|
        ensures run.steps[i].action == Reused && StepName(run.steps[i]) == SourceName(sources[i])
      {
        DownloadStep(sources, present, i);
      }
      FilterAll(Kept, run.steps);
      DownloadFinalPresent(sources, present);
      NothingDownloaded(run.steps);
    }
  }

  lemma {:induction false} NothingDownloaded(steps: seq<Step>)
    requires forall i :: 0 <= i < |steps| ==> steps[i].action == Reused
    ensures DownloadedNames(steps) == {}
    decreases |steps|
  {
    if steps != [] {
      NothingDownloaded(steps[1..]);
    }
  }

  /** A URL whose fetch fails is dropped exactly when its name was neither
      present at the start nor downloaded earlier in the run. */
  lemma FailedFetchIsDropped(sources: seq<Source>, present: set<string>, i: nat)
    requires i < |sources|
    requires !sources[i].fetchOk
    ensures Download(sources, present).steps[i].action == Dropped
            <==> LocalName(sources[i].path) !in present + DownloadedNames(Download(sources, present).steps[..i])
  {
    DownloadClosedForm(sources, present, i);
  }

  /** A name whose fetch failed can still be fetched again by a later URL:
      the failure leaves the name absent, so the next URL with that name is
      not reused. */
  lemma RetryAfterFailure()
    ensures Download([Source("u1", "/a", false), Source("u2", "/a", true)], {}).steps
         == [Step("u1", "a", Dropped), Step("u2", "a", Downloaded)]
  {
    assert "/a" == "/" + "a";
    BaseNameOfLastSegment("/", "a");
    var sources := [Source("u1", "/a", false), Source("u2", "/a", true)];
    DownloadUnfold(sources, {});
    assert sources[1..] == [Source("u2", "/a", true)];
    DownloadUnfold(sources[1..], {});
  }

  lemma DocPathName()
    ensures LocalName("/doc.pdf") == "doc.pdf"
  {
    assert "/doc.pdf" == "/" + "doc.pdf";
    BaseNameOfLastSegment("/", "doc.pdf");
  }

  /** A directory already holding `doc.pdf` serves that URL without a fetch. */
  lemma CachedDocument()
    ensures DownloadDocuments([Source("https://example.com/doc.pdf", "/doc.pdf", false)], {"doc.pdf"})
         == (["doc.pdf"], {"doc.pdf"})
  {
    var s := Source("https://example.com/doc.pdf", "/doc.pdf", false);
    DocPathName();
    AllCachedFetchesNothing([s], {"doc.pdf"});
    assert Map(SourceName, [s]) == ["doc.pdf"];
  }
}

=== FILE: retrieval.dfy ===
/** The retrieval tool: `retrieve_context` in agent_utils.py.

    The vector store and its similarity search are opaque: a store is any
    value of type `S`, and `search(store, query, k)` stands for
    `similarity_search(query, k=k)`. A retrieved document is its printed
    metadata mapping and its page content. */
module Retrieval {
  import opened Wrappers
  import opened Seqs
  import opened Text

  const NotInitialized := "Vector store is not initialized."

  /** Number of documents requested from the store. */
  const TopK := 2

  const SourceTag := "Source: "
  const ContentTag := "\nContent: "
  const Separator := "\n\n"

  /** A retrieved document: `str(doc.metadata)` and `doc.page_content`. */
  datatype Doc = Doc(metadata: string, content: string)

  /** The tool's (content, artifact) pair. */
  datatype ToolResult = ToolResult(text: string, artifact: seq<Doc>)

  /** One document's block: `Source: ` and the metadata on the first line,
      `Content: ` and the content after it. `ReadBlockOf` reads it back. */
  function Block(d: Doc): (b: string)
    ensures StartsWith(b, SourceTag)
    ensures |b| == |SourceTag| + |d.metadata| + |ContentTag| + |d.content|
  {
    SourceTag + d.metadata + ContentTag + d.content
  }

  /** The tool's text: one block per document, blank-line separated. */
  function Serialize(docs: seq<Doc>): (text: string)
    ensures text == [] <==> docs == []
    ensures docs != [] ==> StartsWith(text, SourceTag)
  {
    var blocks := Map(Block, docs);
    if docs == [] then [] else
      assert blocks[0] == Block(docs[0]);
      SerializeUnfold(docs);
      Join(Separator, blocks)
  }

  lemma SerializeUnfold(docs: seq<Doc>)
    requires docs != []
    ensures |docs| == 1 ==> Join(Separator, Map(Block, docs)) == Block(docs[0])
    ensures |docs| > 1 ==> Join(Separator, Map(Block, docs))
                           == Block(docs[0]) + (Separator + Join(Separator, Map(Block, docs[1..])))
  {
    assert Map(Block, docs)[1..] == Map(Block, docs[1..]);
    if |docs| > 1 {
      var rest := Join(Separator, Map(Block, docs[1..]));
      assert Block(docs[0]) + Separator + rest == Block(docs[0]) + (Separator + rest);
    }
  }

  /** The text of several documents is the first block, a separator and
      the text of the others. */
  lemma SerializeCons(docs: seq<Doc>)
    requires |docs| > 1
    ensures Serialize(docs) == Block(docs[0]) + (Separator + Serialize(docs[1..]))
  {
    SerializeUnfold(docs);
  }

  /** `retrieve_context(query)` for the store bound to the tool. */
  function RetrieveContext<S>(store: Option<S>, search: (S, string, nat) -> seq<Doc>, query: string): (r: ToolResult)
    ensures store.None? ==> r == ToolResult(NotInitialized, [])
    ensures store.Some? ==> r.artifact == search(store.value, query, TopK)
    ensures store.Some? ==> r.text != NotInitialized
    ensures store.Some? ==> (r.text == [] <==> r.artifact == [])
    ensures store.Some? && Readable(r.artifact) ==> Parse(r.text) == Some(r.artifact)
  {
    match store
    case None => ToolResult(NotInitialized, [])
    case Some(s) =>
      var docs := search(s, query, TopK);
      var text := Serialize(docs);
      ParseSerialize(docs);
      assert text != NotInitialized by {
        if text != [] {
          assert text[..|SourceTag|] == SourceTag;
          assert text[0] == 'S' != NotInitialized[0];
        }
      }
      ToolResult(text, docs)
  }

  // ---------------------------------------------------------------------
  // Reading the text back
  // ---------------------------------------------------------------------

  /** What starts every block after the first: the separator and the tag. */
  const BlockBreak := Separator + SourceTag

  /** A block break starts at position `k` of `s`. */
  predicate BreakAt(s: string, k: nat)
  {
    k + |BlockBreak| <= |s| && s[k..k + |BlockBreak|] == BlockBreak
  }

  /** No block break starts anywhere in `s`. */
  ghost predicate NoBreak(s: string)
  {
    forall k :: 0 <= k < |s| ==> !BreakAt(s, k)
  }

  /** The documents can be told apart in the text: no metadata contains a
      line break and no content contains a block break. */
  ghost predicate Readable(docs: seq<Doc>)
  {
    forall i :: 0 <= i < |docs| ==> '\n' !in docs[i].metadata && NoBreak(docs[i].content)
  }

  /** Position of the first line break in `s`, or `|s|` if there is none. */
  function LineEnd(s: string): (n: nat)
    ensures n <= |s|
    ensures forall k :: 0 <= k < n ==> s[k] != '\n'
    ensures n < |s| ==> s[n] == '\n'
  {
    if s == [] || s[0] == '\n' then 0 else 1 + LineEnd(s[1..])
  }

  /** Position of the first block break in `s` at or after `i`, or `|s|`
      if there is none. */
  function NextBreak(s: string, i: nat): (n: nat)
    requires i <= |s|
    ensures i <= n <= |s|
    ensures forall k :: i <= k < n ==> !BreakAt(s, k)
    ensures n < |s| ==> BreakAt(s, n)
    decreases |s| - i
  {
    if i == |s| || BreakAt(s, i) then i else NextBreak(s, i + 1)
  }

  /** Reads one block from the front of `s`: the metadata runs to the end
      of its line, the content up to the next block break; returns the
      document and what follows its content. */
  function ReadBlock(s: string): (r: Option<(Doc, string)>)
    ensures r.Some? ==> |r.value.1| < |s|
  {
    if !StartsWith(s, SourceTag) then None else
      var t := s[|SourceTag|..];
      var u := t[LineEnd(t)..];
      if !StartsWith(u, ContentTag) then None else
        var v := u[|ContentTag|..];
        var n := NextBreak(v, 0);
        Some((Doc(t[..LineEnd(t)], v[..n]), v[n..]))
  }

  /** Reads blocks back from a non-empty tool text. */
  function ParseBlocks(s: string): Option<seq<Doc>>
    decreases |s|
  {
    match ReadBlock(s)
    case None => None
    case Some((d, w)) =>
      if w == [] then Some([d])
      else if !StartsWith(w, Separator) then None
      else
        match ParseBlocks(w[|Separator|..])
        case None => None
        case Some(rest) => Some([d] + rest)
  }

  /** Reads the documents back from a tool text. */
  function Parse(s: string): Option<seq<Doc>>
  {
    if s == [] then Some([]) else ParseBlocks(s)
  }

  lemma {:induction false} LineEndOf(a: string, b: string)
    requires '\n' !in a
    requires b == [] || b[0] == '\n'
    ensures LineEnd(a + b) == |a|
    decreases |a|
  {
    if a != [] {
      assert (a + b)[1..] == a[1..] + b;
      LineEndOf(a[1..], b);
    }
  }

  /** Two block breaks cannot overlap: the only line breaks in a break are
      its first two characters. */
  lemma BreaksDoNotOverlap(s: string, k: nat, m: nat)
    requires k < m < k + |BlockBreak|
    requires BreakAt(s, m)
    ensures !BreakAt(s, k)
  {
    var d := m - k;
    assert s[m] == '\n' && s[m + 1] == '\n' by {
      assert s[m..m + |BlockBreak|][0] == s[m];
      assert s[m..m + |BlockBreak|][1] == s[m + 1];
    }
    if k + |BlockBreak| <= |s| {
      if d == 1 {
        assert s[k..k + |BlockBreak|][2] == s[m + 1];
        assert BlockBreak[2] == 'S';
      } else {
        assert s[k..k + |BlockBreak|][d] == s[m];
        assert BlockBreak[d] != '\n';
      }
    }
  }

  /** The content of a block ends where the next block break begins. */
  lemma ContentEndOf(c: string, tail: string)
    requires NoBreak(c)
    requires tail == [] || StartsWith(tail, BlockBreak)
    ensures NextBreak(c + tail, 0) == |c|
  {
    var s := c + tail;
    if tail != [] {
      assert s[|c|..|c| + |BlockBreak|] == tail[..|BlockBreak|];
      assert BreakAt(s, |c|);
    }
    forall k | 0 <= k < |c| ensures !BreakAt(s, k) {
      if k + |BlockBreak| <= |c| {
        assert s[k..k + |BlockBreak|] == c[k..k + |BlockBreak|];
        assert !BreakAt(c, k);
      } else if tail != [] {
        BreaksDoNotOverlap(s, k, |c|);
      }
    }
  }

  lemma SplitConcat(a: string, b: string)
    ensures StartsWith(a + b, a)
    ensures (a + b)[..|a|] == a && (a + b)[|a|..] == b
  {
  }

  /** Reading one block followed by `tail` recovers the document and the tail. */
  lemma ReadBlockOf(d: Doc, tail: string)
    requires '\n' !in d.metadata && NoBreak(d.content)
    requires tail == [] || StartsWith(tail, BlockBreak)
    ensures ReadBlock(Block(d) + tail) == Some((d, tail))
  {
    var v := d.content + tail;
    var u := ContentTag + v;
    var t := d.metadata + u;
    var s := SourceTag + t;
    assert Block(d) + tail == s;
    SplitConcat(SourceTag, t);
    LineEndOf(d.metadata, u);
    SplitConcat(d.metadata, u);
    SplitConcat(ContentTag, v);
    ContentEndOf(d.content, tail);
    SplitConcat(d.content, tail);
  }

  lemma ReadableTail(docs: seq<Doc>)
    requires docs != [] && Readable(docs)
    ensures Readable(docs[1..])
    ensures '\n' !in docs[0].metadata && NoBreak(docs[0].content)
  {
    forall i | 0 <= i < |docs[1..]|
      ensures '\n' !in docs[1..][i].metadata && NoBreak(docs[1..][i].content)
    {
      assert docs[1..][i] == docs[i + 1];
    }
  }

  lemma ParseSerializeOne(d: Doc)
    requires '\n' !in d.metadata && NoBreak(d.content)
    ensures Parse(Serialize([d])) == Some([d])
  {
    SerializeUnfold([d]);
    ReadBlockOf(d, []);
    assert Block(d) + [] == Block(d);
  }

  /** Reading a block, a separator and a further text of blocks. */
  lemma ParseBlockThenMore(d: Doc, rest: string, more: seq<Doc>)
    requires '\n' !in d.metadata && NoBreak(d.content)
    requires StartsWith(rest, SourceTag) && Parse(rest) == Some(more)
    ensures Parse(Block(d) + (Separator + rest)) == Some([d] + more)
  {
    var w := Separator + rest;
    assert w[..|BlockBreak|] == Separator + rest[..|SourceTag|];
    ReadBlockOf(d, w);
    SplitConcat(Separator, rest);
    assert ParseBlocks(Block(d) + w) == Some([d] + more);
  }

  lemma ParseSerializeCons(docs: seq<Doc>)
    requires |docs| > 1
    requires '\n' !in docs[0].metadata && NoBreak(docs[0].content)
    requires Parse(Serialize(docs[1..])) == Some(docs[1..])
    ensures Parse(Serialize(docs)) == Some(docs)
  {
    SerializeCons(docs);
    ParseBlockThenMore(docs[0], Serialize(docs[1..]), docs[1..]);
    assert [docs[0]] + docs[1..] == docs;
  }

  /** Round trip: when no metadata contains a line break and no content
      contains a block break, the text determines the retrieved documents,
      one block per document, in order. */
  lemma {:induction false} ParseSerialize(docs: seq<Doc>)
    ensures Readable(docs) ==> Parse(Serialize(docs)) == Some(docs)
    decreases |docs|
  {
    if docs != [] && Readable(docs) {
      ReadableTail(docs);
      if |docs| == 1 {
        ParseSerializeOne(docs[0]);
        assert docs == [docs[0]];
      } else {
        ParseSerialize(docs[1..]);
        ParseSerializeCons(docs);
      }
    }
  }

  /** Without the restriction on contents the text is ambiguous: a
      document whose content holds a block break followed by a further
      block reads the same as two documents. */
  lemma SerializeIsNotInjective(d: Doc, e: Doc)
    ensures Serialize([Doc(d.metadata, d.content + Separator + Block(e))]) == Serialize([d, e])
    ensures [Doc(d.metadata, d.content + Separator + Block(e))] != [d, e]
    ensures !NoBreak(d.content + Separator + Block(e))
  {
    var merged := Doc(d.metadata, d.content + Separator + Block(e));
    SerializeUnfold([merged]);
    SerializeCons([d, e]);
    assert [d, e][1..] == [e];
    SerializeUnfold([e]);
    assert Block(merged) == Block(d) + (Separator + Block(e));
    BreakBeforeBlock(d.content, e);
  }

  /** A separator followed by a block is a block break. */
  lemma BreakBeforeBlock(c: string, e: Doc)
    ensures BreakAt(c + Separator + Block(e), |c|)
  {
    var s := c + Separator + Block(e);
    assert s == c + (BlockBreak + (e.metadata + ContentTag + e.content));
    assert s[|c|..|c| + |BlockBreak|] == BlockBreak;
  }

}

=== FILE: seqs.dfy ===
/** Order-preserving filters and maps over sequences, and the subsequence
    relation used to state "kept in input order". */
module Seqs {

  /** The elements of `s` that satisfy `p`, in their original order
      (a Python list comprehension with an `if`). */
  function Filter<T>(p: T -> bool, s: seq<T>): (r: seq<T>)
    ensures |r| <= |s|
    ensures forall i :: 0 <= i < |r| ==> p(r[i])
  {
    if s == [] then []
    else if p(s[0]) then [s[0]] + Filter(p, s[1..])
    else Filter(p, s[1..])
  }

  /** `f` applied to every element of `s`. */
  function Map<T, U>(f: T -> U, s: seq<T>): (r: seq<U>)
    ensures |r| == |s|
    ensures forall i :: 0 <= i < |s| ==> r[i] == f(s[i])
  {
    seq(|s|, i requires 0 <= i < |s| => f(s[i]))
  }

  lemma MapCons<T, U>(f: T -> U, x: T, s: seq<T>)
    ensures Map(f, [x] + s) == [f(x)] + Map(f, s)
  {
  }

  /** `a` is obtained from `b` by deleting elements, without reordering. */
  ghost predicate IsSubsequence<T>(a: seq<T>, b: seq<T>)
    decreases |b|
  {
    a == [] ||
    (b != [] &&
     ((a[0] == b[0] && IsSubsequence(a[1..], b[1..])) || IsSubsequence(a, b[1..])))
  }

  /** Filtering only deletes elements: the result is a subsequence. */
  lemma {:induction false} FilterIsSubsequence<T>(p: T -> bool, s: seq<T>)
    ensures IsSubsequence(Filter(p, s), s)
    decreases |s|
  {
    if s != [] {
      FilterIsSubsequence(p, s[1..]);
      if p(s[0]) {
        assert Filter(p, s)[1..] == Filter(p, s[1..]);
      }
    }
  }

  /** Filtering keeps every occurrence of an accepted value and none of a
      rejected one. */
  lemma {:induction false} FilterCount<T>(p: T -> bool, s: seq<T>, x: T)
    ensures multiset(Filter(p, s))[x] == if p(x) then multiset(s)[x] else 0
    decreases |s|
  {
    if s != [] {
      FilterCount(p, s[1..], x);
      assert multiset(s) == multiset([s[0]]) + multiset(s[1..]) by {
        assert s == [s[0]] + s[1..];
      }
      if p(s[0]) {
        assert multiset(Filter(p, s)) == multiset([s[0]]) + multiset(Filter(p, s[1..]));
      }
    }
  }

  /** A property of every element survives filtering. */
  lemma {:induction false} FilterKeeps<T>(p: T -> bool, q: T -> bool, s: seq<T>)
    requires forall i :: 0 <= i < |s| ==> q(s[i])
    ensures forall i :: 0 <= i < |Filter(p, s)| ==> q(Filter(p, s)[i])
    decreases |s|
  {
    if s != [] {
      FilterKeeps(p, q, s[1..]);
    }
  }

  /** Filtering a sequence all of whose elements are accepted changes nothing. */
  lemma {:induction false} FilterAll<T>(p: T -> bool, s: seq<T>)
    requires forall i :: 0 <= i < |s| ==> p(s[i])
    ensures Filter(p, s) == s
    decreases |s|
  {
    if s != [] {
      FilterAll(p, s[1..]);
      assert s == [s[0]] + s[1..];
    }
  }

  /** Filtering a mapped sequence one element at a time. */
  lemma FilterMapCons<T, U>(p: U -> bool, f: T -> U, x: T, s: seq<T>)
    ensures Filter(p, Map(f, [x] + s)) == (if p(f(x)) then [f(x)] else []) + Filter(p, Map(f, s))
  {
    assert Map(f, [x] + s)[1..] == Map(f, s);
  }

  /** Mapping preserves the subsequence relation. */
  lemma {:induction false} MapSubsequence<T, U>(f: T -> U, a: seq<T>, b: seq<T>)
    requires IsSubsequence(a, b)
    ensures IsSubsequence(Map(f, a), Map(f, b))
    decreases |b|
  {
    if a != [] {
      assert Map(f, b)[1..] == Map(f, b[1..]);
      if a[0] == b[0] && IsSubsequence(a[1..], b[1..]) {
        MapSubsequence(f, a[1..], b[1..]);
        assert Map(f, a)[1..] == Map(f, a[1..]);
      } else {
        MapSubsequence(f, a, b[1..]);
      }
    }
  }
}

=== FILE: text.dfy ===
/** String helpers with Python's semantics: `str.isspace`, `str.strip`,
    `str.startswith` and `str.join`. */
module Text {

  /** The characters for which Python's `str.isspace()` holds: bidirectional
      class WS, B or S, or general category Zs. */
  predicate IsSpace(c: char): (b: bool)
    ensures b <==> c as int in PythonWhitespace
  {
    || ('\U{9}' <= c <= '\U{D}')
    || ('\U{1C}' <= c <= '\U{20}')
    || c == '\U{85}' || c == '\U{A0}' || c == '\U{1680}'
    || ('\U{2000}' <= c <= '\U{200A}')
    || c == '\U{2028}' || c == '\U{2029}' || c == '\U{202F}' || c == '\U{205F}'
    || c == '\U{3000}'
  }

  /** The code points of the characters for which `str.isspace()` holds,
      listed one by one. */
  const PythonWhitespace: set<int> :=
    {0x09, 0x0A, 0x0B, 0x0C, 0x0D, 0x1C, 0x1D, 0x1E, 0x1F, 0x20, 0x85, 0xA0, 0x1680,
     0x2000, 0x2001, 0x2002, 0x2003, 0x2004, 0x2005, 0x2006, 0x2007, 0x2008, 0x2009, 0x200A,
     0x2028, 0x2029, 0x202F, 0x205F, 0x3000}

  /** Number of whitespace characters at the front of `s`. */
  function LeadingSpaces(s: string): (n: nat)
    ensures n <= |s|
    ensures forall k :: 0 <= k < n ==> IsSpace(s[k])
    ensures n == |s| || !IsSpace(s[n])
  {
    if s == [] || !IsSpace(s[0]) then 0 else 1 + LeadingSpaces(s[1..])
  }

  /** Number of whitespace characters at the back of `s`. */
  function TrailingSpaces(s: string): (n: nat)
    ensures n <= |s|
    ensures forall k :: |s| - n <= k < |s| ==> IsSpace(s[k])
    ensures n == |s| || !IsSpace(s[|s| - n - 1])
  {
    if s == [] || !IsSpace(s[|s| - 1]) then 0 else 1 + TrailingSpaces(s[..|s| - 1])
  }

  /** Python's `s.strip()`: `s` without its leading and trailing whitespace. */
  function Strip(s: string): (r: string)
    ensures LeadingSpaces(s) + |r| <= |s|
    ensures r == s[LeadingSpaces(s)..LeadingSpaces(s) + |r|]
    ensures forall k :: 0 <= k < LeadingSpaces(s) ==> IsSpace(s[k])
    ensures forall k :: LeadingSpaces(s) + |r| <= k < |s| ==> IsSpace(s[k])
    ensures r != [] ==> !IsSpace(r[0]) && !IsSpace(r[|r| - 1])
  {
    var t := s[LeadingSpaces(s)..];
    t[..|t| - TrailingSpaces(t)]
  }

  /** A string is all whitespace exactly when stripping it leaves nothing. */
  lemma StripEmptyIff(s: string)
    ensures Strip(s) == [] <==> forall k :: 0 <= k < |s| ==> IsSpace(s[k])
  {
    var i := LeadingSpaces(s);
    if Strip(s) != [] {
      assert !IsSpace(s[i]);
    }
  }

  /** Stripping twice is stripping once. */
  lemma StripIdempotent(s: string)
    ensures Strip(Strip(s)) == Strip(s)
  {
    var r := Strip(s);
    assert LeadingSpaces(r) == 0;
    assert TrailingSpaces(r) == 0;
  }

  /** A string that neither starts nor ends with whitespace is already stripped. */
  lemma StripUnchanged(s: string)
    requires s == [] || (!IsSpace(s[0]) && !IsSpace(s[|s| - 1]))
    ensures Strip(s) == s
  {
    assert LeadingSpaces(s) == 0;
    assert TrailingSpaces(s) == 0;
  }

  predicate StartsWith(s: string, prefix: string)
  {
    |prefix| <= |s| && s[..|prefix|] == prefix
  }

  /** Python's `sep.join(parts)`. */
  function Join(sep: string, parts: seq<string>): (r: string)
    ensures parts == [] ==> r == []
    ensures |parts| == 1 ==> r == parts[0]
  {
    if parts == [] then []
    else if |parts| == 1 then parts[0]
    else parts[0] + sep + Join(sep, parts[1..])
  }
}

=== FILE: url_list.dfy ===
/** The URL list reader: `read_urls` in document_utils.py.

    The file is given as its lines (`None` when it does not exist); reading
    it and splitting it into lines are I/O and are not part of this model. */
module UrlList {
  import opened Wrappers
  import opened Seqs
  import opened Text

  /** A stripped line that names a URL: neither blank nor a `#` comment. */
  predicate IsUrlLine(line: string)
  {
    line != [] && line[0] != '#'
  }

  /** The URLs listed in a file, one per non-blank, non-comment line, each
      trimmed of surrounding whitespace. */
  function ReadUrls(file: Option<seq<string>>): (urls: seq<string>)
    ensures file.None? ==> urls == []
    ensures file.Some? ==> |urls| <= |file.value|
    ensures forall i :: 0 <= i < |urls| ==> IsUrlLine(urls[i]) && Strip(urls[i]) == urls[i]
  {
    match file
    case None => []
    case Some(lines) =>
      StrippedLinesAreTrimmed(lines);
      FilterKeeps(IsUrlLine, IsTrimmed, Map(Strip, lines));
      Filter(IsUrlLine, Map(Strip, lines))
  }

  predicate IsTrimmed(s: string) { Strip(s) == s }

  lemma StrippedLinesAreTrimmed(lines: seq<string>)
    ensures forall i :: 0 <= i < |lines| ==> IsTrimmed(Map(Strip, lines)[i])
  {
    forall i | 0 <= i < |lines| ensures IsTrimmed(Map(Strip, lines)[i]) {
      StripIdempotent(lines[i]);
    }
  }

  /** The URLs keep the order of the lines they come from. */
  lemma ReadUrlsInOrder(lines: seq<string>)
    ensures IsSubsequence(ReadUrls(Some(lines)), Map(Strip, lines))
  {
    FilterIsSubsequence(IsUrlLine, Map(Strip, lines));
  }

  /** Every stripped line that names a URL is returned, as often as it
      occurs, and nothing else is. */
  lemma ReadUrlsCount(lines: seq<string>, u: string)
    ensures multiset(ReadUrls(Some(lines)))[u]
            == if IsUrlLine(u) then multiset(Map(Strip, lines))[u] else 0
  {
    FilterCount(IsUrlLine, Map(Strip, lines), u);
  }

  /** A URL line that survives stripping is returned. */
  lemma UrlLineIsKept(lines: seq<string>, i: nat)
    requires i < |lines|
    requires IsUrlLine(Strip(lines[i]))
    ensures Strip(lines[i]) in ReadUrls(Some(lines))
  {
    var u := Strip(lines[i]);
    assert Map(Strip, lines)[i] == u;
    assert u in multiset(Map(Strip, lines));
    ReadUrlsCount(lines, u);
    assert u in multiset(ReadUrls(Some(lines)));
  }

  /** A line that is blank or a comment once stripped contributes nothing. */
  lemma SkippedLine(line: string, rest: seq<string>)
    requires !IsUrlLine(Strip(line))
    ensures ReadUrls(Some([line] + rest)) == ReadUrls(Some(rest))
  {
    assert ReadUrls(Some(rest)) == Filter(IsUrlLine, Map(Strip, rest));
    FilterMapCons(IsUrlLine, Strip, line, rest);
  }

  /** Any other line contributes its stripped text, ahead of the URLs of
      the lines after it. */
  lemma KeptLine(line: string, rest: seq<string>)
    requires IsUrlLine(Strip(line))
    ensures ReadUrls(Some([line] + rest)) == [Strip(line)] + ReadUrls(Some(rest))
  {
    assert ReadUrls(Some(rest)) == Filter(IsUrlLine, Map(Strip, rest));
    FilterMapCons(IsUrlLine, Strip, line, rest);
  }

  /** The blank line and the comment of the example below contribute
      nothing, whatever follows. */
  lemma ExampleLineSkipped(line: string, rest: seq<string>)
    requires line == "" || line == "# note"
    ensures ReadUrls(Some([line] + rest)) == ReadUrls(Some(rest))
  {
    assert !IsUrlLine(Strip(line)) by { StripUnchanged(line); }
    SkippedLine(line, rest);
  }

  /** A blank line and a comment contribute nothing, whatever follows. */
  lemma BlankAndCommentContributeNothing(rest: seq<string>)
    ensures ReadUrls(Some(["", "# note"] + rest)) == ReadUrls(Some(rest))
  {
    assert ["", "# note"] + rest == [""] + (["# note"] + rest);
    ExampleLineSkipped("", ["# note"] + rest);
    ExampleLineSkipped("# note", rest);
  }

  /** A blank line and a comment ahead of a URL line are skipped. */
  lemma BlankAndCommentSkipped(line: string)
    requires IsUrlLine(Strip(line))
    ensures ReadUrls(Some(["", "# note", line])) == [Strip(line)]
  {
    BlankAndCommentContributeNothing([line]);
    assert ["", "# note"] + [line] == ["", "# note", line];
    KeptLine(line, []);
    assert [line] == [line] + [];
  }

  lemma ExampleUrlIsKept()
    ensures IsUrlLine("https://example.com/doc.pdf")
    ensures Strip("https://example.com/doc.pdf") == "https://example.com/doc.pdf"
  {
    StripUnchanged("https://example.com/doc.pdf");
  }

  /** One blank line, one comment and one URL give exactly that URL. */
  lemma BlankCommentAndUrl()
    ensures ReadUrls(Some(["", "# note", "https://example.com/doc.pdf"]))
         == ["https://example.com/doc.pdf"]
  {
    ExampleUrlIsKept();
    BlankAndCommentSkipped("https://example.com/doc.pdf");
  }

}

=== FILE: wrappers.dfy ===
/** Optional values: a missing file, an absent history or an uninitialised store. */
module Wrappers {

  datatype Option<+T> = None | Some(value: T)
}
